=== FILE: README.md ===
# JPPT process-lifecycle core, modelled in Dafny

This project models the process-lifecycle utilities of the JPPT command-line
template. The template keeps two near-identical copies of them, under
`src/utils/` and `src/jppt/utils/`. The logic of the copies is the same, so
each piece is modelled once. The table cites the copy whose lines the member
follows. Test scenarios cite the test file.

- **Layered configuration** (`config.py`, module `Config`). `load_config` needs
  `default.yaml`. It merges the optional `{env}.yaml` onto it one level deep,
  applies `TELEGRAM_BOT_TOKEN` / `TELEGRAM_CHAT_ID` when they are non-empty, and
  builds `Settings`, whose sections and fields fall back to declared defaults.
  Files arrive as `Document`s (absent, not YAML, or a parsed `Value` tree). The
  environment arrives as a map.
- **Retry** (`retry.py`, module `Retry`). `with_retry` calls the operation at
  most `max_attempts` times, with tenacity's `wait_exponential` backoff between
  calls. It returns the first success, or a `RetryExhaustedError` caused by the
  last error. The operation is its scripted outcomes, `op(i)` for call `i`.
  Waits are whole milliseconds.
- **Graceful shutdown** (`signals.py`, module `Signals`). A `should_exit` flag
  and an ordered callback list. SIGTERM/SIGINT raise the flag. Leaving the
  `async with` block after a signal awaits every callback in order and swallows
  failures. Callbacks are ids, and `raises` maps an id to the error it raises.
- **Notifier** (`telegram.py`, module `Telegram`). Whether a bot call happens,
  what it carries, and the text `send_error` assembles. The bot is an oracle
  that accepts or raises.
- **Exception hierarchy** (`exceptions.py`, module `Exceptions`). Each class is
  a constructor. Among the application's classes and `Exception`, `IsA` is
  `issubclass`. Classes from outside the application are all placed directly
  under `Exception`.

Some behaviours of the code are easy to misread from its own comments and
docstrings. The model follows what the code does:

- The merge is one level deep, although the comment above the loop calls it
  a deep merge (`src/utils/config.py:111`). A mapping two levels down replaces
  the base's mapping there (`Config.MergeIsOneLevelDeep`).
- The `load_config` docstring says `ConfigurationError` is raised when a file
  is "missing or invalid" (`src/utils/config.py:89-90`,
  `src/jppt/utils/config.py:58-59`). Only a missing `default.yaml` raises it.
  A file that is not valid YAML raises the YAML library's error
  (`Config.LoadConfig`, `Config.MergedData`).
- A type mismatch in the merged data raises pydantic's own validation error
  (`Foreign("ValidationError")`). The application's `ValidationError` is never
  raised here.
- The merge's `dict.update` accepts an empty string or list as an empty
  update. A non-empty string raises `ValueError` (`Config.UpdateEntries`).
- An exception raised between attempts is wrapped in `RetryExhaustedError`,
  like exhaustion (`Retry.SleepFaultIsWrapped`).
- `max_attempts` below 1 is accepted and behaves like 1 (`Retry.Attempts`).
- The `send_message` docstring in `src/jppt/utils/telegram.py:50-51` says it
  raises `TelegramException` when sending fails. The code at lines 64-66 logs
  the failure and returns normally (`Telegram.SendMessage`).
- `__aexit__` resets nothing, so a second exit runs the callbacks again
  (`Signals.ExitTwiceRepeatsCleanup`).

## Model

| member | source | states |
|---|---|---|
| `Exceptions.Parent` | src/utils/exceptions.py:14-71 | only `Exception` has no base; `AppException` and foreign classes derive from `Exception`; every other application class derives from an application class |
| `Exceptions.IsA` | src/utils/exceptions.py:14-71 | every class is a subclass of `Exception`, and a proper base is strictly closer to `Exception` than its subclass |
| `Exceptions.IsATransitive` | src/utils/exceptions.py:14-71 | subclassing through the declared bases is transitive |
| `Exceptions.IsAAntisymmetric` | src/utils/exceptions.py:14-71 | two distinct classes are never subclasses of each other |
| `Exceptions.EverythingIsException` | src/utils/exceptions.py:14 | every class derives from `Exception`, so `except Exception` catches all of them |
| `Exceptions.AppExceptionRoot` | src/jppt/utils/exceptions.py:4-43 | a class derives from `AppException` exactly when the application declares it |
| `Exceptions.ExceptionHierarchy` | tests/test_utils/test_exceptions.py:18-25 | the six subclass facts the tests assert hold, and siblings are not subclasses of each other |
| `Config.AsMapping` | src/utils/config.py:104-110 | an empty document (`None`, `{}`, `[]`, `""`, `0`, `False`) reads as `{}`; a mapping is used as it is; a non-mapping fails with a TypeError; text that is not YAML fails with the YAML error |
| `Config.UpdateEntries` | src/utils/config.py:114 | `dict.update(v)` succeeds exactly for a mapping, an empty string or an empty list; a mapping adds its entries, the empty ones add nothing; a non-empty string raises ValueError, and null, booleans and numbers raise TypeError |
| `Config.MergeEnv` | src/utils/config.py:112-116 | fails exactly when a base mapping's `update` would raise, and then with the error one such `update` raises; otherwise: the keys are the union; keys absent from the env file are untouched; a key absent from base, or not a mapping there, takes the env value wholesale; under a key that is a mapping in base, env's second-level keys win and base-only ones survive, and an empty string or list changes nothing |
| `Config.MergeInPlace` | src/jppt/utils/config.py:81-85 | the key-by-key mutating loop, in any key order, succeeds exactly when `MergeEnv` does and then yields the same mapping; when it fails, it stops with the error of a key whose `update` raises |
| `Config.SetTelegramField` | src/utils/config.py:120 | `setdefault("telegram", {})[field] = value` creates `telegram` when absent and sets only that field; it fails when `telegram` is not a mapping |
| `Config.ApplyEnvOverrides` | src/utils/config.py:119-122 | unset or empty variables change nothing; a non-empty variable overwrites `bot_token` / `chat_id` whatever the YAML says, creating `telegram` if needed; no other key or telegram field changes, and no telegram field is added besides `bot_token` / `chat_id`; failure only when a variable is set and `telegram` is not a mapping |
| `Config.BuildApp` | src/utils/config.py:25-27 | absent `name`, `version` and `debug` default to `"jppt"`, `"0.1.0"` and `False`; present ones are taken as given; a present field of the wrong type fails validation |
| `Config.BuildLogging` | src/utils/config.py:40-45 | absent `level`, `format`, `rotation` and `retention` take their declared defaults; present ones are taken as given; a present non-string fails validation |
| `Config.BuildTelegram` | src/utils/config.py:57-59 | absent `enabled`, `bot_token` and `chat_id` default to `False`, `""` and `""`; present ones are taken as given; a present field of the wrong type fails validation |
| `Config.BuildSettings` | src/utils/config.py:71-73 | succeeds exactly when every present section is a mapping and every present field has its type; absent sections and fields take their defaults |
| `Config.MergedData` | src/utils/config.py:103-122 | invalid YAML in either file gives the YAML error, and an env file's YAML error is reported before a base that is not a mapping; without an env file the data are the base plus the variable overrides; with a parsed env file they are `MergeEnv` of the two files (or its error) plus the overrides; on success non-empty variables have set `bot_token` / `chat_id` |
| `Config.LoadConfig` | src/utils/config.py:97-124 | a missing `default.yaml` gives `ConfigurationError("Default config not found: <path>")`, and only that case does; invalid YAML in `default.yaml` or `{env}.yaml` gives the YAML error; otherwise the result is `Settings` built from the merged, overridden data, or that step's error; on success a non-empty variable is the final token / chat id |
| `Config.MissingBaseReadsNothingElse` | src/utils/config.py:100-101 | without `default.yaml` the result does not depend on the env file or the environment, and the message starts with "Default config not found: " |
| `Config.EmptyBaseIsEmptyMapping` | src/utils/config.py:105 | an empty base document loads exactly like `{}` |
| `Config.EmptyEnvDocumentIsNoOverride` | src/utils/config.py:110 | an empty env document loads exactly like having no env file |
| `Config.MergeWithEmpty` | src/jppt/utils/config.py:81-85 | merging `{}` onto any base returns the base |
| `Config.AbsentEnvFileKeepsBase` | src/utils/config.py:108 | with no env file, the merged data is the base with only the variable overrides applied |
| `Config.UnsetVariablesChangeNothing` | src/jppt/utils/config.py:88-91 | unset or empty variables load exactly like an empty environment |
| `Config.MergeIsOneLevelDeep` | src/utils/config.py:114 | a depth-2 mapping in the env file replaces the base's depth-2 mapping, dropping base-only keys there |
| `Config.UpdateShapes` | src/utils/config.py:113-116 | a base mapping updated from null raises TypeError and from `"x"` raises ValueError; from `""` it is unchanged; a base scalar is replaced by an env mapping |
| `Config.SettingsDefaults` | tests/test_utils/test_config.py:20-24 | `Settings()` has `debug == False`, `level == "INFO"`, name `"jppt"` and version `"0.1.0"` |
| `Config.ExampleMergeResult` | tests/test_utils/test_config.py:27-47 | the test's dev file merges onto its base as `app: {name: test, debug: true}`, `logging: {level: DEBUG}` |
| `Config.EnvFileOverrideExample` | tests/test_utils/test_config.py:27-52 | loading that scenario gives `debug` true and level `DEBUG` from dev, and name `test` from the base |
| `Config.EnvVariablesExample` | tests/test_utils/test_config.py:61-79 | the variables beat the empty YAML token and chat id: `"test-token"` and `"12345"` |
| `Retry.Attempts` | src/utils/retry.py:53 | the call budget is `max_attempts`, and 1 when `max_attempts` is below 1 |
| `Retry.Backoff` | src/utils/retry.py:54-57 | each wait is at most `max(0, max_wait)` |
| `Retry.NatDecimal` | src/utils/retry.py:70 | the text `{max_attempts}` puts into the message: decimal digits that denote the number, with no leading zero |
| `Retry.Exhausted` | src/utils/retry.py:69-71 | the wrapper error is a `RetryExhaustedError` raised from the given error; its message starts with "Failed after ", then `max_attempts` in decimal, and ends with the given error's text |
| `Retry.Drive` | src/utils/retry.py:52-77 | from attempt n: the calls stay within the budget; every call before the last failed; the result is the last call's value exactly when that call succeeded; waits are the backoffs of the failed attempts in order; a failure is the budget running out or a fault while waiting, wrapped with that error as cause |
| `Retry.WithRetry` | src/jppt/utils/retry.py:42-68 | one call of the decorated function: 1 to `max_attempts` calls; one wait fewer than calls; the first success is returned unchanged; every failure is a `RetryExhaustedError` caused by the last error |
| `Retry.FirstAttemptSucceeds` | src/utils/retry.py:59-61 | a first success is returned after exactly one call with no wait |
| `Retry.SucceedsAfterFailures` | src/utils/retry.py:52-61 | k failures below the budget, then a success: that value after exactly k+1 calls |
| `Retry.AlwaysFails` | src/utils/retry.py:62-71 | an always-failing operation is called exactly `max_attempts` times; the error names `max_attempts`, carries the last error's text, and has the last (not the first) error as cause |
| `Retry.SleepFaultIsWrapped` | src/utils/retry.py:72-77 | an exception between attempts is wrapped the same way, with it as cause, and no further call is made |
| `Retry.SingleAttemptNeverWaits` | src/jppt/utils/retry.py:44-52 | with `max_attempts <= 1` a failure gives one call, no wait, then `RetryExhaustedError` |
| `Retry.BackoffMonotone` | src/utils/retry.py:54-57 | the backoff after a later attempt is never shorter |
| `Retry.WaitsNonDecreasing` | src/utils/retry.py:31-32 | the waits of any run never decrease and never exceed the maximum wait |
| `Retry.BackoffSchedule` | src/utils/retry.py:25-27 | with the defaults (1 s, cap 10 s) the backoff after attempts 1, 2, 4 and 5 is 1 s, 2 s, 8 s and 10 s |
| `Retry.SucceedsOnThirdCallExample` | tests/test_utils/test_retry.py:21-34 | two failures, then `"success"`, after three calls |
| `Retry.ExhaustedExample` | tests/test_utils/test_retry.py:37-45 | always failing with two attempts gives "Failed after 2 attempts: permanent error", caused by the original error |
| `Signals.New` | src/utils/signals.py:29-32 | a new handler has the flag down and no callbacks |
| `Signals.RegisterCleanup` | src/utils/signals.py:34-40 | the callback is appended at the end; earlier ones keep their order; the flag is unchanged |
| `Signals.HandleSignal` | src/utils/signals.py:42-45 | the flag goes up and the callback list is unchanged |
| `Signals.FailuresOf` | src/utils/signals.py:55-59 | the logged failures are exactly the raising callbacks with their errors |
| `Signals.Exit` | src/utils/signals.py:51-59 | flag down: nothing runs; flag up: every callback is awaited once, in registration order; the handler is left unchanged |
| `Signals.RunCleanup` | src/jppt/utils/signals.py:46-54 | the per-callback `try`/`except` loop awaits exactly what `Exit` says, so a raising callback never stops later ones |
| `Signals.SetupSignalHandlers` | src/utils/signals.py:62-72 | exactly two handlers are installed |
| `Signals.InstalledForTermAndInt` | src/jppt/utils/signals.py:64-65 | after installation, exactly SIGTERM and SIGINT raise the flag, and no signal touches the callbacks |
| `Signals.FlagNeverReverts` | src/utils/signals.py:29-45 | once up, no sequence of registrations and signals lowers the flag |
| `Signals.FlagIffSignal` | src/jppt/utils/signals.py:37-40 | the flag is up exactly when it was up before or a signal arrived |
| `Signals.CallbacksInRegistrationOrder` | src/jppt/utils/signals.py:28-35 | the callback list is the old list followed by the registrations, in order |
| `Signals.ExitTwiceRepeatsCleanup` | src/jppt/utils/signals.py:46-54 | exit changes nothing, so a second exit awaits the same callbacks again |
| `Signals.ContextWithoutSignal` | tests/test_utils/test_signals.py:10-20 | without a signal the flag stays down through the block and no callback runs |
| `Signals.SignalThenCleanup` | tests/test_utils/test_signals.py:23-43 | after a simulated SIGTERM the flag is up and leaving the block runs the registered cleanup |
| `Signals.FailingCallbackDoesNotStopOthers` | src/utils/signals.py:55-59 | with A, B, C where B raises, all three run once in order and only B's failure is logged |
| `Telegram.Init` | src/utils/telegram.py:21-37 | a bot exists exactly when enabled with a non-empty token |
| `Telegram.SendMessage` | src/utils/telegram.py:39-67 | disabled or without a bot: no call; otherwise one call with `chat_id`, the text and the parse mode; a bot failure is swallowed, never raised |
| `Telegram.SendError` | src/utils/telegram.py:69-82 | the alert goes through `send_message` with parse mode "Markdown", under the same gating |
| `Telegram.DeliveryGating` | src/jppt/utils/telegram.py:32-55 | from construction: skipped exactly when disabled or the token is empty, else exactly one call |
| `Telegram.ContextLineIffContext` | src/utils/telegram.py:76-80 | the text after the header opens with "**Context:** " exactly when the context is non-empty |
| `Telegram.ErrorAlert` | src/utils/telegram.py:76-80 | the alert opens with the "🚨 **Error Alert**" header and ends with the `` **Error:** `<type name>` `` line followed by the message line, whatever the context; without a context nothing lies between the header and the type-name line |
| `Telegram.ErrorAlertFraming` | src/jppt/utils/telegram.py:80 | every alert ends with "**Message:** " and the error text, whatever the context |
| `Telegram.ErrorAlertDeterminesContext` | src/utils/telegram.py:77-78 | two alerts for the same error with different contexts differ, so the context is recoverable |
| `Telegram.EnabledSendExample` | tests/test_utils/test_telegram.py:8-21 | enabled: one call with `chat_id="12345"`, the text and `parse_mode="Markdown"` |
| `Telegram.DisabledSendExample` | tests/test_utils/test_telegram.py:24-28 | disabled: returns normally without a call |
| `Telegram.RejectedSendExample` | tests/test_utils/test_telegram.py:31-43 | a bot that raises still lets `send_message` return normally |
| `Telegram.EmptyTokenSkips` | src/jppt/utils/telegram.py:32-36 | enabled with an empty token: no bot, every send skipped |

## Left out

- `Exceptions.Parent`: every class from outside the application sits directly under `Exception`. In Python, pydantic's `ValidationError` (`Foreign("ValidationError")`) subclasses `ValueError`, so `IsA` misses that relation. The YAML error stands for the subclass yaml actually raises (`ScannerError`, `ParserError`, …), so its `TypeName` is not that subclass's `type(e).__name__`.
- Reading files, checking that they exist, parsing YAML, and the default `config/` directory (`src/utils/config.py:94-95`). These are file I/O, so parsed documents and "file absent" are inputs.
- YAML floats, timestamps (an unquoted `2024-01-01` loads as a `date`), `!!binary` values, non-string mapping keys and anchors/aliases (shared nodes that one `update` would change in two places) are not in the `Value` type.
- `Config.UpdateEntries`: a non-empty YAML list is always taken to raise TypeError. In Python, `dict.update` accepts a list of key/value pairs, and raises ValueError for elements that are iterable but not of length two.
- `Config.MergeEnv`: when several keys fail to merge, Python raises the error of the first in file order. A `Mapping` keeps no order, so the model raises ValueError whenever some failing key holds a string, and TypeError otherwise. The exact TypeError message, which names the offending type, is generic here.
- `Config.BuildApp`: pydantic's lax bool coercion for `debug` is not modelled. pydantic accepts `debug: 1` or `debug: "true"`; the model rejects them.
- `Config.BuildTelegram`: pydantic's lax bool coercion for `enabled` is not modelled. pydantic accepts `enabled: 1` or `enabled: "true"`; the model rejects them.
- `Config.BuildSettings`: pydantic's lax coercion (`"yes"` to `True`, for example) is not modelled, so such values count as validation failures. `BaseSettings`' own environment reading and its handling of extra top-level keys are also left out. Extra keys are ignored here.
- `Config.AsMapping`: the exact Python error text and class for a non-mapping document are collapsed into one TypeError-kind failure. Python's class depends on where the document is first used as a dict: `TypeError` in the merge loop or in `Settings(**data)`, `AttributeError` in `.items()` or `setdefault`. The model fails as soon as the document is read, after both files are parsed, so a YAML error in `{env}.yaml` still comes first (`Config.MergedData`).
- `Retry.Backoff`: waits are whole milliseconds rather than float seconds, and the wait is recorded rather than slept. In the source, a float `wait_seconds` times `2 ** (n - 1)` raises `OverflowError` from attempt 1025 on, and tenacity then waits `max`. The model's integers do not overflow, so it always waits `max(0, min(wait_seconds * 2 ** (n - 1), max))`. On such an attempt the two differ in two cases. When `wait_seconds <= 0`, the model waits 0 where tenacity would wait `max`. When `max_wait_seconds` is negative, tenacity returns that negative `max`, `time.sleep` raises `ValueError`, and the `except Exception` branch wraps it. The model waits 0 and carries on.
- Tenacity internals other than its stop and wait rules, and exceptions outside `Exception` (`KeyboardInterrupt`), are left out. So are the logged messages and `functools.wraps`.
- The trailing `raise` after the retry loop (`src/utils/retry.py:79`) cannot be reached, because every path through the loop returns or raises. It has no counterpart in the model.
- `Signals.Exit`: callbacks are ids without effects. The source iterates the live callback list (`src/utils/signals.py:55`), so a callback that calls `register_cleanup` during cleanup has the new callback awaited in the same pass. The model does not cover this: `invoked` is the list as it was when exit began.
- OS signal delivery, asyncio scheduling and awaiting are concurrency, so a signal is a single transition. A callback that raises outside `Exception` (cancellation) is not modelled. `__aenter__` only returns the handler, which is a no-op here.
- The Telegram `Bot` client and its network call are an oracle. Loguru logging is left out everywhere.
- The HTTP client, FastAPI app, uvicorn runner, Typer entry points, app and batch runners, and logger setup are not part of this model. They are network, framework, argument-parsing or logging code.

=== FILE: config.dfy ===
/** Layered configuration loading: `default.yaml`, then the optional
    `{env}.yaml`, then the two Telegram environment variables, then the typed
    `Settings` record with its declared defaults.

    File reading is not modelled: each file arrives as a `Document` (absent,
    not valid YAML, or the parsed tree), and the process environment arrives
    as a map from variable name to value. */
module Config {
  import opened Wrappers
  import opened Exceptions

  // ---------------------------------------------------------------------------
  // Parsed YAML
  // ---------------------------------------------------------------------------

  datatype Atom = Null | Bool(b: bool) | Int(i: int) | Str(s: string)

  /** A parsed YAML node: a scalar, a sequence, or a mapping with string keys. */
  datatype Value = Scalar(atom: Atom) | List(items: seq<Value>) | Map(entries: map<string, Value>)

  type Mapping = map<string, Value>

  /** One configuration file as the loader finds it. */
  datatype Document = Missing | Malformed | Parsed(content: Value)

  /** The error `yaml.safe_load` raises on text that is not YAML. */
  const YamlErrorKind := Foreign("YAMLError")
  /** The error Python raises when a non-mapping is used as a dict. */
  const TypeErrorKind := Foreign("TypeError")
  /** The error pydantic raises when a field has the wrong type. */
  const SchemaErrorKind := Foreign("ValidationError")

  const NotFoundPrefix := "Default config not found: "

  /** Python truthiness of a parsed document: `None`, `False`, `0`, `""`,
      `[]` and `{}` are false. */
  predicate Falsy(v: Value) {
    match v
    case Scalar(a) => a == Null || a == Bool(false) || a == Int(0) || a == Str("")
    case List(items) => items == []
    case Map(entries) => entries == map[]
  }

  /** `yaml.safe_load(f) or {}`, then used as a dict. */
  function AsMapping(d: Document): (r: Result<Mapping, Error>)
    requires !d.Missing?
    ensures d.Malformed? ==> r.Failure? && r.error.kind == YamlErrorKind
    ensures d.Parsed? && Falsy(d.content) ==> r == Success(map[])
    ensures d.Parsed? && d.content.Map? ==> r == Success(d.content.entries)
    ensures d.Parsed? && !Falsy(d.content) && !d.content.Map? ==> r.Failure? && r.error.kind == TypeErrorKind
  {
    match d
    case Malformed => Failure(Raise(YamlErrorKind, "document is not valid YAML"))
    case Parsed(v) =>
      if Falsy(v) then Success(map[])
      else if v.Map? then Success(v.entries)
      else Failure(Raise(TypeErrorKind, "configuration document is not a mapping"))
  }

  // ---------------------------------------------------------------------------
  // Merging the environment file onto the base
  // ---------------------------------------------------------------------------

  /** The error `dict.update` raises when the elements of its argument are
      not key/value pairs of length two. */
  const ValueErrorKind := Foreign("ValueError")

  /** `dict.update` given a non-empty string: its first element is a
      one-character string, not a pair. */
  const PairLengthError := Raise(ValueErrorKind, "dictionary update sequence element #0 has length 1; 2 is required")
  /** `dict.update` given something it cannot iterate as pairs. */
  const NotPairsError := Raise(TypeErrorKind, "object is not iterable as key/value pairs")

  /** The entries `d.update(v)` adds to a mapping `d`, or what it raises. A
      mapping adds its entries; an empty string or sequence is an empty
      iterable and adds nothing; a non-empty string raises ValueError; null,
      booleans and numbers are not iterable and raise TypeError. A non-empty
      sequence is taken to raise TypeError: sequences of pairs are not
      modelled. */
  function UpdateEntries(v: Value): (r: Result<Mapping, Error>)
    ensures r.Success? <==> v.Map? || v == Scalar(Str("")) || v == List([])
    ensures v.Map? ==> r == Success(v.entries)
    ensures r.Success? && !v.Map? ==> r.value == map[]
    ensures r.Failure? ==> (r.error.kind == ValueErrorKind <==> v.Scalar? && v.atom.Str?)
    ensures r.Failure? ==> r.error.kind == ValueErrorKind || r.error.kind == TypeErrorKind
  {
    match v
    case Map(entries) => Success(entries)
    case List(items) => if items == [] then Success(map[]) else Failure(NotPairsError)
    case Scalar(Str(s)) => if s == "" then Success(map[]) else Failure(PairLengthError)
    case Scalar(_) => Failure(NotPairsError)
  }

  /** `default_data[key].update(value)` raises: the base holds a mapping
      under `key` and the environment file's value is not usable as one. */
  predicate UpdateFails(base: Mapping, over: Mapping, k: string)
    requires k in over
  {
    k in base && base[k].Map? && UpdateEntries(over[k]).Failure?
  }

  predicate MergeFails(base: Mapping, over: Mapping) {
    exists k :: k in over && UpdateFails(base, over, k)
  }

  /** What one iteration of the merge loop stores under `k`: a one-level
      `dict.update` when the base value is a mapping, the environment value
      otherwise. */
  function MergedValue(base: Mapping, over: Mapping, k: string): Value
    requires k in over && !UpdateFails(base, over, k)
  {
    if k in base && base[k].Map? then Map(base[k].entries + UpdateEntries(over[k]).value) else over[k]
  }

  /** The base after the loop has processed the keys in `done`. */
  function MergedUpTo(base: Mapping, over: Mapping, done: set<string>): Mapping
    requires done <= over.Keys
    requires forall k :: k in done ==> !UpdateFails(base, over, k)
  {
    map k | k in base.Keys + done :: if k in done then MergedValue(base, over, k) else base[k]
  }

  /** The merge of the environment file's mapping `over` onto the base. When
      several keys fail, Python raises for the first in file order; a
      `Mapping` keeps no order, so a ValueError is reported whenever one of
      the failing keys would raise one. */
  function MergeEnv(base: Mapping, over: Mapping): (r: Result<Mapping, Error>)
    ensures r.Failure? <==> MergeFails(base, over)
    // the error is the one some failing `update` raises
    ensures r.Failure? ==> exists k :: k in over && UpdateFails(base, over, k) && r.error == UpdateEntries(over[k]).error
    ensures r.Success? ==> r.value.Keys == base.Keys + over.Keys
    // keys the environment file does not mention are untouched
    ensures r.Success? ==> forall k :: k in base && k !in over ==> r.value[k] == base[k]
    // absent from base, or not a mapping there: replaced wholesale
    ensures r.Success? ==> forall k :: k in over && (k !in base || !base[k].Map?) ==> r.value[k] == over[k]
    // a mapping in both: second-level keys of the environment file win, base-only ones survive
    ensures r.Success? ==> forall k :: k in over && k in base && base[k].Map? && over[k].Map? ==>
              && r.value[k].Map?
              && r.value[k].entries.Keys == base[k].entries.Keys + over[k].entries.Keys
              && (forall j :: j in over[k].entries ==> r.value[k].entries[j] == over[k].entries[j])
              && (forall j :: j in base[k].entries && j !in over[k].entries ==> r.value[k].entries[j] == base[k].entries[j])
    // an empty string or sequence under a base mapping updates nothing
    ensures r.Success? ==> forall k :: k in over && k in base && base[k].Map? && !over[k].Map? ==> r.value[k] == base[k]
  {
    if MergeFails(base, over) then
      if exists k :: k in over && UpdateFails(base, over, k) && over[k].Scalar? && over[k].atom.Str? then
        Failure(PairLengthError)
      else
        Failure(NotPairsError)
    else Success(MergedUpTo(base, over, over.Keys))
  }

  /** The merge loop as the source runs it: visit the environment file's keys
      one at a time (in any order), mutating the base, and stop at the first
      `dict.update` that raises. */
  method MergeInPlace(base: Mapping, over: Mapping) returns (r: Result<Mapping, Error>)
    ensures r.Success? <==> MergeEnv(base, over).Success?
    ensures r.Success? ==> r == MergeEnv(base, over)
    ensures r.Failure? ==> exists k :: k in over && UpdateFails(base, over, k) && r.error == UpdateEntries(over[k]).error
  {
    var data := base;
    var todo := over.Keys;
    ghost var done: set<string> := {};
    while todo != {}
      invariant todo + done == over.Keys && todo !! done
      invariant forall k :: k in done ==> !UpdateFails(base, over, k)
      invariant data == MergedUpTo(base, over, done)
      decreases todo
    {
      var k :| k in todo;
      if k in data && data[k].Map? {
        var added := UpdateEntries(over[k]);
        if added.Failure? {
          assert UpdateFails(base, over, k);
          return Failure(added.error);
        }
        data := data[k := Map(data[k].entries + added.value)];
      } else {
        data := data[k := over[k]];
      }
      todo := todo - {k};
      done := done + {k};
    }
    return Success(data);
  }

  // ---------------------------------------------------------------------------
  // Environment-variable overrides
  // ---------------------------------------------------------------------------

  const TokenVar := "TELEGRAM_BOT_TOKEN"
  const ChatVar := "TELEGRAM_CHAT_ID"

  /** `os.getenv(name)` is truthy: the variable is set and non-empty. */
  predicate EnvSet(environ: map<string, string>, name: string) {
    name in environ && environ[name] != ""
  }

  /** The `telegram` mapping of `data`, or `{}` when it is absent. */
  function TelegramEntries(data: Mapping): Mapping {
    if "telegram" in data && data["telegram"].Map? then data["telegram"].entries else map[]
  }

  /** `data.setdefault("telegram", {})[field] = value`. */
  function SetTelegramField(data: Mapping, field: string, value: string): (r: Result<Mapping, Error>)
    ensures r.Failure? <==> "telegram" in data && !data["telegram"].Map?
    ensures r.Success? ==> r.value.Keys == data.Keys + {"telegram"}
    ensures r.Success? ==> forall k :: k in data && k != "telegram" ==> r.value[k] == data[k]
    ensures r.Success? ==> r.value["telegram"] == Map(TelegramEntries(data)[field := Scalar(Str(value))])
  {
    if "telegram" !in data then Success(data["telegram" := Map(map[field := Scalar(Str(value))])])
    else if data["telegram"].Map? then
      Success(data["telegram" := Map(data["telegram"].entries[field := Scalar(Str(value))])])
    else Failure(Raise(TypeErrorKind, "telegram section is not a mapping"))
  }

  /** The telegram key `j` is one an environment variable overwrites. */
  predicate Overridden(environ: map<string, string>, j: string) {
    (j == "bot_token" && EnvSet(environ, TokenVar)) || (j == "chat_id" && EnvSet(environ, ChatVar))
  }

  /** Apply `TELEGRAM_BOT_TOKEN`, then `TELEGRAM_CHAT_ID`. */
  function ApplyEnvOverrides(data: Mapping, environ: map<string, string>): (r: Result<Mapping, Error>)
    ensures !EnvSet(environ, TokenVar) && !EnvSet(environ, ChatVar) ==> r == Success(data)
    ensures r.Failure? <==>
              (EnvSet(environ, TokenVar) || EnvSet(environ, ChatVar)) && "telegram" in data && !data["telegram"].Map?
    ensures r.Success? ==> forall k :: k in data && k != "telegram" ==> k in r.value && r.value[k] == data[k]
    ensures r.Success? && (EnvSet(environ, TokenVar) || EnvSet(environ, ChatVar)) ==>
              && "telegram" in r.value && r.value["telegram"].Map?
              && r.value.Keys == data.Keys + {"telegram"}
    ensures r.Success? && EnvSet(environ, TokenVar) ==>
              && "bot_token" in TelegramEntries(r.value)
              && TelegramEntries(r.value)["bot_token"] == Scalar(Str(environ[TokenVar]))
    ensures r.Success? && EnvSet(environ, ChatVar) ==>
              && "chat_id" in TelegramEntries(r.value)
              && TelegramEntries(r.value)["chat_id"] == Scalar(Str(environ[ChatVar]))
    // no telegram key appears besides the overridden ones
    ensures r.Success? ==>
              TelegramEntries(r.value).Keys
                == TelegramEntries(data).Keys
                   + (if EnvSet(environ, TokenVar) then {"bot_token"} else {})
                   + (if EnvSet(environ, ChatVar) then {"chat_id"} else {})
    // no other telegram key changes
    ensures r.Success? ==>
              forall j :: j in TelegramEntries(data) && !Overridden(environ, j) ==>
                j in TelegramEntries(r.value) && TelegramEntries(r.value)[j] == TelegramEntries(data)[j]
  {
    var withToken :-
      if EnvSet(environ, TokenVar) then SetTelegramField(data, "bot_token", environ[TokenVar]) else Success(data);
    if EnvSet(environ, ChatVar) then SetTelegramField(withToken, "chat_id", environ[ChatVar]) else Success(withToken)
  }

  // ---------------------------------------------------------------------------
  // The typed settings and their defaults
  // ---------------------------------------------------------------------------

  datatype AppConfig = AppConfig(name: string, version: string, debug: bool)
  datatype LoggingConfig = LoggingConfig(level: string, format: string, rotation: string, retention: string)
  datatype TelegramConfig = TelegramConfig(enabled: bool, botToken: string, chatId: string)
  datatype Settings = Settings(app: AppConfig, logging: LoggingConfig, telegram: TelegramConfig)

  const DefaultApp := AppConfig("jppt", "0.1.0", false)
  const DefaultLogging := LoggingConfig(
    "INFO",
    "{time:YYYY-MM-DD HH:mm:ss} | {level: <8} | {name}:{function}:{line} | {message}",
    "00:00",
    "10 days")
  const DefaultTelegram := TelegramConfig(false, "", "")
  const DefaultSettings := Settings(DefaultApp, DefaultLogging, DefaultTelegram)

  /** `section[key]`, when present. */
  function Get(section: Mapping, key: string): Option<Value> {
    if key in section then Some(section[key]) else None
  }

  /** The entries of a section of `data`; `{}` when it is absent or not a mapping. */
  function SectionEntries(data: Mapping, section: string): Mapping {
    if section in data && data[section].Map? then data[section].entries else map[]
  }

  /** `data[section][key]`, when the section is a mapping that holds the key. */
  function Lookup(data: Mapping, section: string, key: string): Option<Value> {
    Get(SectionEntries(data, section), key)
  }

  predicate FitsStr(v: Option<Value>) {
    v.None? || (v.value.Scalar? && v.value.atom.Str?)
  }

  predicate FitsBool(v: Option<Value>) {
    v.None? || (v.value.Scalar? && v.value.atom.Bool?)
  }

  /** The string a field ends up with: its own value, or the declared default. */
  function StrOr(v: Option<Value>, default: string): string {
    if v.Some? && v.value.Scalar? && v.value.atom.Str? then v.value.atom.s else default
  }

  function BoolOr(v: Option<Value>, default: bool): bool {
    if v.Some? && v.value.Scalar? && v.value.atom.Bool? then v.value.atom.b else default
  }

  predicate AppFits(s: Mapping) {
    FitsStr(Get(s, "name")) && FitsStr(Get(s, "version")) && FitsBool(Get(s, "debug"))
  }

  predicate LoggingFits(s: Mapping) {
    && FitsStr(Get(s, "level")) && FitsStr(Get(s, "format"))
    && FitsStr(Get(s, "rotation")) && FitsStr(Get(s, "retention"))
  }

  predicate TelegramFits(s: Mapping) {
    FitsBool(Get(s, "enabled")) && FitsStr(Get(s, "bot_token")) && FitsStr(Get(s, "chat_id"))
  }

  /** A section is absent or a mapping. */
  predicate SectionFits(data: Mapping, name: string) {
    name !in data || data[name].Map?
  }

  /** Every present section is a mapping and every present field has its
      declared type. */
  predicate WellShaped(data: Mapping) {
    && SectionFits(data, "app") && SectionFits(data, "logging") && SectionFits(data, "telegram")
    && AppFits(SectionEntries(data, "app"))
    && LoggingFits(SectionEntries(data, "logging"))
    && TelegramFits(SectionEntries(data, "telegram"))
  }

  function SchemaError(what: string): Error {
    Raise(SchemaErrorKind, what)
  }

  /** A section of `Settings`: absent means all defaults. */
  function Section(data: Mapping, name: string): (r: Result<Mapping, Error>)
    ensures r.Success? <==> SectionFits(data, name)
    ensures r.Success? ==> r.value == SectionEntries(data, name)
  {
    if name !in data then Success(map[])
    else if data[name].Map? then Success(data[name].entries)
    else Failure(SchemaError(name + " is not a mapping"))
  }

  function StrField(section: Mapping, key: string, default: string): (r: Result<string, Error>)
    ensures r.Success? <==> FitsStr(Get(section, key))
    ensures r.Success? ==> r.value == StrOr(Get(section, key), default)
  {
    if key !in section then Success(default)
    else match section[key]
      case Scalar(Str(s)) => Success(s)
      case _ => Failure(SchemaError(key + " is not a string"))
  }

  function BoolField(section: Mapping, key: string, default: bool): (r: Result<bool, Error>)
    ensures r.Success? <==> FitsBool(Get(section, key))
    ensures r.Success? ==> r.value == BoolOr(Get(section, key), default)
  {
    if key !in section then Success(default)
    else match section[key]
      case Scalar(Bool(b)) => Success(b)
      case _ => Failure(SchemaError(key + " is not a boolean"))
  }

  function BuildApp(s: Mapping): (r: Result<AppConfig, Error>)
    ensures r.Success? <==> AppFits(s)
    ensures r.Failure? ==> r.error.kind == SchemaErrorKind
    ensures r.Success? ==> r.value == AppConfig(
              StrOr(Get(s, "name"), DefaultApp.name),
              StrOr(Get(s, "version"), DefaultApp.version),
              BoolOr(Get(s, "debug"), DefaultApp.debug))
  {
    var name :- StrField(s, "name", DefaultApp.name);
    var version :- StrField(s, "version", DefaultApp.version);
    var debug :- BoolField(s, "debug", DefaultApp.debug);
    Success(AppConfig(name, version, debug))
  }

  function BuildLogging(s: Mapping): (r: Result<LoggingConfig, Error>)
    ensures r.Success? <==> LoggingFits(s)
    ensures r.Failure? ==> r.error.kind == SchemaErrorKind
    ensures r.Success? ==> r.value == LoggingConfig(
              StrOr(Get(s, "level"), DefaultLogging.level),
              StrOr(Get(s, "format"), DefaultLogging.format),
              StrOr(Get(s, "rotation"), DefaultLogging.rotation),
              StrOr(Get(s, "retention"), DefaultLogging.retention))
  {
    var level :- StrField(s, "level", DefaultLogging.level);
    var format :- StrField(s, "format", DefaultLogging.format);
    var rotation :- StrField(s, "rotation", DefaultLogging.rotation);
    var retention :- StrField(s, "retention", DefaultLogging.retention);
    Success(LoggingConfig(level, format, rotation, retention))
  }

  function BuildTelegram(s: Mapping): (r: Result<TelegramConfig, Error>)
    ensures r.Success? <==> TelegramFits(s)
    ensures r.Failure? ==> r.error.kind == SchemaErrorKind
    ensures r.Success? ==> r.value == TelegramConfig(
              BoolOr(Get(s, "enabled"), DefaultTelegram.enabled),
              StrOr(Get(s, "bot_token"), DefaultTelegram.botToken),
              StrOr(Get(s, "chat_id"), DefaultTelegram.chatId))
  {
    var enabled :- BoolField(s, "enabled", DefaultTelegram.enabled);
    var token :- StrField(s, "bot_token", DefaultTelegram.botToken);
    var chat :- StrField(s, "chat_id", DefaultTelegram.chatId);
    Success(TelegramConfig(enabled, token, chat))
  }

  /** `Settings(**data)`: fill absent sections and fields with their defaults. */
  function BuildSettings(data: Mapping): (r: Result<Settings, Error>)
    ensures r.Success? <==> WellShaped(data)
    ensures r.Failure? ==> r.error.kind == SchemaErrorKind
    ensures r.Success? ==> r.value == Settings(
              AppConfig(
                StrOr(Lookup(data, "app", "name"), DefaultApp.name),
                StrOr(Lookup(data, "app", "version"), DefaultApp.version),
                BoolOr(Lookup(data, "app", "debug"), DefaultApp.debug)),
              LoggingConfig(
                StrOr(Lookup(data, "logging", "level"), DefaultLogging.level),
                StrOr(Lookup(data, "logging", "format"), DefaultLogging.format),
                StrOr(Lookup(data, "logging", "rotation"), DefaultLogging.rotation),
                StrOr(Lookup(data, "logging", "retention"), DefaultLogging.retention)),
              TelegramConfig(
                BoolOr(Lookup(data, "telegram", "enabled"), DefaultTelegram.enabled),
                StrOr(Lookup(data, "telegram", "bot_token"), DefaultTelegram.botToken),
                StrOr(Lookup(data, "telegram", "chat_id"), DefaultTelegram.chatId)))
  {
    var app :- Section(data, "app");
    var logging :- Section(data, "logging");
    var telegram :- Section(data, "telegram");
    var a :- BuildApp(app);
    var l :- BuildLogging(logging);
    var t :- BuildTelegram(telegram);
    Success(Settings(a, l, t))
  }

  // ---------------------------------------------------------------------------
  // load_config
  // ---------------------------------------------------------------------------

  /** Merge the environment file, if present, onto the base mapping. */
  function MergeEnvDocument(data: Mapping, envDoc: Document): Result<Mapping, Error> {
    if envDoc.Missing? then Success(data)
    else
      var over :- AsMapping(envDoc);
      MergeEnv(data, over)
  }

  /** Everything `load_config` does before handing the mapping to
      `Settings`. Both files are parsed before the base is first used as a
      dict, so a broken `{env}.yaml` is reported ahead of a base that is not
      a mapping. */
  function MergedData(base: Document, envDoc: Document, environ: map<string, string>): (r: Result<Mapping, Error>)
    requires !base.Missing?
    ensures base.Malformed? || envDoc.Malformed? ==> r.Failure? && r.error.kind == YamlErrorKind
    ensures base.Parsed? && !envDoc.Malformed? && AsMapping(base).Failure? ==> r == AsMapping(base)
    ensures base.Parsed? && base.content.Map? && envDoc.Missing? ==> r == ApplyEnvOverrides(base.content.entries, environ)
    // a present, parsed environment file is merged onto the base before the overrides
    ensures base.Parsed? && envDoc.Parsed? && AsMapping(base).Success? && AsMapping(envDoc).Success? ==>
              var m := MergeEnv(AsMapping(base).value, AsMapping(envDoc).value);
              && (m.Failure? ==> r == Failure(m.error))
              && (m.Success? ==> r == ApplyEnvOverrides(m.value, environ))
    ensures r.Success? && EnvSet(environ, TokenVar) ==>
              "bot_token" in TelegramEntries(r.value) && TelegramEntries(r.value)["bot_token"] == Scalar(Str(environ[TokenVar]))
    ensures r.Success? && EnvSet(environ, ChatVar) ==>
              "chat_id" in TelegramEntries(r.value) && TelegramEntries(r.value)["chat_id"] == Scalar(Str(environ[ChatVar]))
  {
    if base.Parsed? && envDoc.Malformed? then AsMapping(envDoc)
    else
      var data :- AsMapping(base);
      var merged :- MergeEnvDocument(data, envDoc);
      ApplyEnvOverrides(merged, environ)
  }

  /** `load_config(env, config_dir)` where `defaultPath` is the printed path of
      `default.yaml`, `base` and `envDoc` are `default.yaml` and `{env}.yaml`,
      and `environ` is the process environment. */
  function LoadConfig(defaultPath: string, base: Document, envDoc: Document, environ: map<string, string>)
    : (r: Result<Settings, Error>)
    ensures base.Missing? ==> r == Failure(Raise(ConfigurationError, NotFoundPrefix + defaultPath))
    ensures r.Failure? && r.error.kind == ConfigurationError ==> base.Missing?
    ensures base.Malformed? ==> r.Failure? && r.error.kind == YamlErrorKind
    ensures !base.Missing? && envDoc.Malformed? ==> r.Failure? && r.error.kind == YamlErrorKind
    // otherwise the settings are built from the merged, overridden data
    ensures !base.Missing? ==>
              var d := MergedData(base, envDoc, environ);
              && (d.Failure? ==> r == Failure(d.error))
              && (d.Success? ==> r == BuildSettings(d.value))
    ensures r.Success? && EnvSet(environ, TokenVar) ==> r.value.telegram.botToken == environ[TokenVar]
    ensures r.Success? && EnvSet(environ, ChatVar) ==> r.value.telegram.chatId == environ[ChatVar]
  {
    if base.Missing? then Failure(Raise(ConfigurationError, NotFoundPrefix + defaultPath))
    else
      var data :- MergedData(base, envDoc, environ);
      BuildSettings(data)
  }

  // ---------------------------------------------------------------------------
  // Properties
  // ---------------------------------------------------------------------------

  /** Without `default.yaml` nothing else is consulted: neither the
      environment file nor the environment decides the outcome. */
  lemma MissingBaseReadsNothingElse(p: string, e1: Document, e2: Document,
                                    env1: map<string, string>, env2: map<string, string>)
    ensures LoadConfig(p, Missing, e1, env1) == LoadConfig(p, Missing, e2, env2)
    ensures LoadConfig(p, Missing, e1, env1).Failure?
    ensures LoadConfig(p, Missing, e1, env1).error.message[..|NotFoundPrefix|] == NotFoundPrefix
  {
  }

  /** An empty base document behaves like `{}`. */
  lemma EmptyBaseIsEmptyMapping(p: string, v: Value, envDoc: Document, environ: map<string, string>)
    requires Falsy(v)
    ensures LoadConfig(p, Parsed(v), envDoc, environ) == LoadConfig(p, Parsed(Map(map[])), envDoc, environ)
  {
  }

  /** An empty environment document behaves like `{}`, which in turn behaves
      like no environment file at all. */
  lemma EmptyEnvDocumentIsNoOverride(p: string, base: Document, v: Value, environ: map<string, string>)
    requires Falsy(v)
    ensures LoadConfig(p, base, Parsed(v), environ) == LoadConfig(p, base, Missing, environ)
  {
    if !base.Missing? && AsMapping(base).Success? {
      MergeWithEmpty(AsMapping(base).value);
    }
  }

  /** Merging `{}` onto any base changes nothing. */
  lemma MergeWithEmpty(base: Mapping)
    ensures MergeEnv(base, map[]) == Success(base)
  {
    var none: Mapping := map[];
    assert !MergeFails(base, none);
    assert none.Keys == {};
    var m := MergedUpTo(base, none, {});
    assert m.Keys == base.Keys;
    assert forall k :: k in m ==> m[k] == base[k];
    assert m == base;
  }

  /** With no environment file, the merged data is the base data with only
      the environment-variable overrides applied. */
  lemma AbsentEnvFileKeepsBase(base: Document, environ: map<string, string>)
    requires base.Parsed? && base.content.Map?
    ensures MergedData(base, Missing, environ) == ApplyEnvOverrides(base.content.entries, environ)
  {
  }

  /** Unset or empty variables leave the YAML values alone. */
  lemma UnsetVariablesChangeNothing(p: string, base: Document, envDoc: Document, environ: map<string, string>)
    requires !EnvSet(environ, TokenVar) && !EnvSet(environ, ChatVar)
    ensures LoadConfig(p, base, envDoc, environ) == LoadConfig(p, base, envDoc, map[])
  {
  }

  /** The merge is one level deep: a mapping two levels down in the
      environment file replaces the base's mapping there, so `y` is lost. */
  lemma MergeIsOneLevelDeep()
    ensures var inner := Map(map["x" := Scalar(Int(1)), "y" := Scalar(Int(2))]);
            var update := Map(map["x" := Scalar(Int(3))]);
            MergeEnv(map["a" := Map(map["b" := inner])], map["a" := Map(map["b" := update])])
              == Success(map["a" := Map(map["b" := update])])
  {
    var inner := Map(map["x" := Scalar(Int(1)), "y" := Scalar(Int(2))]);
    var update := Map(map["x" := Scalar(Int(3))]);
    var base := map["a" := Map(map["b" := inner])];
    var over := map["a" := Map(map["b" := update])];
    assert !MergeFails(base, over) by {
      forall k | k in over ensures !UpdateFails(base, over, k) {
        assert k == "a";
      }
    }
    var r := MergeEnv(base, over).value;
    assert r.Keys == {"a"};
    var e := r["a"].entries;
    assert e.Keys == {"b"} && e["b"] == update;
    assert e == map["b" := update];
    assert r == map["a" := Map(map["b" := update])];
  }

  /** A base mapping updated from null raises TypeError and from a
      non-empty string raises ValueError; an empty string updates nothing; a
      base non-mapping is replaced by whatever the environment file holds. */
  lemma UpdateShapes()
    ensures MergeEnv(map["app" := Map(map[])], map["app" := Scalar(Null)]) == Failure(NotPairsError)
    ensures MergeEnv(map["app" := Map(map[])], map["app" := Scalar(Str("x"))]) == Failure(PairLengthError)
    ensures MergeEnv(map["app" := Map(map[])], map["app" := Scalar(Str(""))]) == Success(map["app" := Map(map[])])
    ensures MergeEnv(map["app" := Scalar(Null)], map["app" := Map(map[])]) == Success(map["app" := Map(map[])])
  {
    var b1 := map["app" := Map(map[])];
    var o1 := map["app" := Scalar(Null)];
    assert UpdateFails(b1, o1, "app");
    assert !exists k :: k in o1 && UpdateFails(b1, o1, k) && o1[k].Scalar? && o1[k].atom.Str? by {
      forall k | k in o1 ensures !o1[k].atom.Str? {
        assert k == "app";
      }
    }
    var o3 := map["app" := Scalar(Str("x"))];
    assert UpdateFails(b1, o3, "app");
    var o4 := map["app" := Scalar(Str(""))];
    assert !MergeFails(b1, o4) by {
      forall k | k in o4 ensures !UpdateFails(b1, o4, k) {
        assert k == "app";
      }
    }
    var r4 := MergeEnv(b1, o4).value;
    assert r4.Keys == {"app"} && r4["app"] == b1["app"];
    assert r4 == b1;
    var b2 := map["app" := Scalar(Null)];
    var o2 := map["app" := Map(map[])];
    assert !MergeFails(b2, o2) by {
      forall k | k in o2 ensures !UpdateFails(b2, o2, k) {
        assert k == "app";
      }
    }
    var r := MergeEnv(b2, o2).value;
    assert r.Keys == {"app"} && r["app"] == Map(map[]);
    assert r == o2;
  }

  /** `Settings()` with no data: every field at its declared default. */
  lemma SettingsDefaults()
    ensures BuildSettings(map[]) == Success(DefaultSettings)
    ensures !DefaultSettings.app.debug && DefaultSettings.logging.level == "INFO"
    ensures DefaultSettings.app.name == "jppt" && DefaultSettings.app.version == "0.1.0"
  {
  }

  /** The base and environment files of the override scenario, and their merge. */
  const ExampleBase: Mapping := map[
    "app" := Map(map["name" := Scalar(Str("test")), "debug" := Scalar(Bool(false))]),
    "logging" := Map(map["level" := Scalar(Str("INFO"))]),
    "telegram" := Map(map["enabled" := Scalar(Bool(false))])]
  const ExampleDev: Mapping := map[
    "app" := Map(map["debug" := Scalar(Bool(true))]),
    "logging" := Map(map["level" := Scalar(Str("DEBUG"))])]
  const ExampleMerged: Mapping := map[
    "app" := Map(map["name" := Scalar(Str("test")), "debug" := Scalar(Bool(true))]),
    "logging" := Map(map["level" := Scalar(Str("DEBUG"))]),
    "telegram" := Map(map["enabled" := Scalar(Bool(false))])]

  lemma ExampleMergeResult()
    ensures MergeEnv(ExampleBase, ExampleDev) == Success(ExampleMerged)
  {
    var b, o := ExampleBase, ExampleDev;
    assert !MergeFails(b, o) by {
      forall k | k in o ensures !UpdateFails(b, o, k) {
        assert k == "app" || k == "logging";
      }
    }
    var m := MergedUpTo(b, o, o.Keys);
    assert o.Keys == {"app", "logging"};
    assert m.Keys == ExampleMerged.Keys;
    assert m["app"] == Map(b["app"].entries + o["app"].entries);
    assert b["app"].entries + o["app"].entries == ExampleMerged["app"].entries;
    assert m["logging"] == Map(b["logging"].entries + o["logging"].entries);
    assert b["logging"].entries + o["logging"].entries == ExampleMerged["logging"].entries;
    assert m["telegram"] == ExampleMerged["telegram"];
    assert m == ExampleMerged;
  }

  lemma ExampleSettings()
    ensures var r := BuildSettings(ExampleMerged);
            r.Success? && r.value.app.debug && r.value.logging.level == "DEBUG" && r.value.app.name == "test"
  {
    var app := map["name" := Scalar(Str("test")), "debug" := Scalar(Bool(true))];
    var logging := map["level" := Scalar(Str("DEBUG"))];
    var telegram := map["enabled" := Scalar(Bool(false))];
    assert SectionEntries(ExampleMerged, "app") == app;
    assert SectionEntries(ExampleMerged, "logging") == logging;
    assert SectionEntries(ExampleMerged, "telegram") == telegram;
    assert AppFits(app) by {
      assert "version" !in app;
    }
    assert LoggingFits(logging) by {
      assert "format" !in logging && "rotation" !in logging && "retention" !in logging;
    }
    assert TelegramFits(telegram) by {
      assert "bot_token" !in telegram && "chat_id" !in telegram;
    }
  }

  /** The environment file overrides `app.debug` and `logging.level` while
      `app.name` is kept from the base. */
  lemma EnvFileOverrideExample()
    ensures var r := LoadConfig("cfg/default.yaml", Parsed(Map(ExampleBase)), Parsed(Map(ExampleDev)), map[]);
            r.Success? && r.value.app.debug && r.value.logging.level == "DEBUG" && r.value.app.name == "test"
  {
    assert "app" in ExampleBase && "app" in ExampleDev;
    assert AsMapping(Parsed(Map(ExampleBase))) == Success(ExampleBase);
    assert AsMapping(Parsed(Map(ExampleDev))) == Success(ExampleDev);
    ExampleMergeResult();
    assert MergeEnvDocument(ExampleBase, Parsed(Map(ExampleDev))) == Success(ExampleMerged);
    assert ApplyEnvOverrides(ExampleMerged, map[]) == Success(ExampleMerged);
    assert MergedData(Parsed(Map(ExampleBase)), Parsed(Map(ExampleDev)), map[]) == Success(ExampleMerged);
    ExampleSettings();
  }

  /** The base file of the environment-variable scenario: empty token and
      chat id in YAML. */
  const VarsBase: Mapping := map[
    "app" := Map(map["name" := Scalar(Str("test"))]),
    "telegram" := Map(map[
      "enabled" := Scalar(Bool(false)),
      "bot_token" := Scalar(Str("")),
      "chat_id" := Scalar(Str(""))])]
  const VarsEnviron := map[TokenVar := "test-token", ChatVar := "12345"]

  lemma VarsOverrideShape()
    ensures ApplyEnvOverrides(VarsBase, VarsEnviron).Success?
    ensures WellShaped(ApplyEnvOverrides(VarsBase, VarsEnviron).value)
  {
    assert "telegram" in VarsBase && VarsBase["telegram"].Map?;
    assert EnvSet(VarsEnviron, TokenVar) && EnvSet(VarsEnviron, ChatVar);
    var m := ApplyEnvOverrides(VarsBase, VarsEnviron).value;
    assert m.Keys == {"app", "telegram"};
    assert m["app"] == VarsBase["app"];
    var app := SectionEntries(m, "app");
    assert app == map["name" := Scalar(Str("test"))];
    assert AppFits(app) by {
      assert "version" !in app && "debug" !in app;
    }
    var before := TelegramEntries(VarsBase);
    assert "enabled" in before && !Overridden(VarsEnviron, "enabled");
    var tel := SectionEntries(m, "telegram");
    assert tel == TelegramEntries(m);
    assert Get(tel, "enabled") == Some(Scalar(Bool(false)));
    assert Get(tel, "bot_token") == Some(Scalar(Str("test-token")));
    assert Get(tel, "chat_id") == Some(Scalar(Str("12345")));
    assert TelegramFits(tel);
    assert SectionEntries(m, "logging") == map[];
  }

  /** Non-empty variables beat the empty YAML token and chat id. */
  lemma EnvVariablesExample()
    ensures var r := LoadConfig("cfg/default.yaml", Parsed(Map(VarsBase)), Missing, VarsEnviron);
            r.Success? && r.value.telegram.botToken == "test-token" && r.value.telegram.chatId == "12345"
  {
    assert "app" in VarsBase;
    VarsOverrideShape();
    assert MergedData(Parsed(Map(VarsBase)), Missing, VarsEnviron) == ApplyEnvOverrides(VarsBase, VarsEnviron);
  }
}

=== FILE: exceptions.dfy ===
/** The application's exception hierarchy and the exception values the other
    modules raise, catch and wrap. */
module Exceptions {
  import opened Wrappers

  /** One constructor per exception class. `PyException` is Python's built-in
      `Exception`; `Foreign(name)` is a class defined outside the application
      (`ValueError`, `TypeError`, a library's own error), which this model places
      directly under `Exception`. */
  datatype ErrorKind =
    | PyException
    | AppException
    | ConfigurationError
    | ServiceError
    | TelegramError
    | HttpClientError
    | ValidationError
    | RetryExhaustedError
    | Foreign(name: string)

  /** The direct base class of each class: only `Exception` has none;
      `AppException` and the foreign classes derive from `Exception`; every
      other application class derives from an application class. */
  function Parent(k: ErrorKind): (p: Option<ErrorKind>)
    ensures p.None? <==> k.PyException?
    ensures k.AppException? || k.Foreign? ==> p == Some(PyException)
    ensures p.Some? && IsAppClass(k) && !k.AppException? ==> IsAppClass(p.value)
  {
    match k
    case PyException => None
    case AppException => Some(PyException)
    case ConfigurationError => Some(AppException)
    case ServiceError => Some(AppException)
    case TelegramError => Some(ServiceError)
    case HttpClientError => Some(ServiceError)
    case ValidationError => Some(AppException)
    case RetryExhaustedError => Some(AppException)
    case Foreign(_) => Some(PyException)
  }

  /** Distance from the root `Exception`. */
  function Depth(k: ErrorKind): nat {
    match Parent(k)
    case None => 0
    case Some(p) =>
      match p
      case PyException => 1
      case AppException => 2
      case _ => 3
  }

  /** `issubclass(k, base)`: reflexive, and closed under the parent step. */
  predicate IsA(k: ErrorKind, base: ErrorKind)
    decreases Depth(k)
    ensures IsA(k, base) && k != base ==> Depth(base) < Depth(k)
    ensures base.PyException? ==> IsA(k, base)
  {
    k == base || (Parent(k).Some? && IsA(Parent(k).value, base))
  }

  /** The classes declared by the application itself. */
  predicate IsAppClass(k: ErrorKind) {
    !k.PyException? && !k.Foreign?
  }

  /** `type(e).__name__`. */
  function TypeName(k: ErrorKind): string {
    match k
    case PyException => "Exception"
    case AppException => "AppException"
    case ConfigurationError => "ConfigurationError"
    case ServiceError => "ServiceError"
    case TelegramError => "TelegramError"
    case HttpClientError => "HttpClientError"
    case ValidationError => "ValidationError"
    case RetryExhaustedError => "RetryExhaustedError"
    case Foreign(name) => name
  }

  /** A raised exception: its class, `str(e)`, and the exception it was raised
      `from` (its `__cause__`). */
  datatype Error = Error(kind: ErrorKind, message: string, cause: Option<Error>)

  /** `raise kind(message)` with no `from` clause. */
  function Raise(kind: ErrorKind, message: string): (e: Error)
    ensures e.kind == kind && e.message == message && e.cause.None?
  {
    Error(kind, message, None)
  }

  /** Every subclass relation is witnessed by a strictly shallower base. */
  lemma {:induction false} IsADepth(k: ErrorKind, base: ErrorKind)
    requires IsA(k, base)
    ensures Depth(base) <= Depth(k)
    ensures k != base ==> Depth(base) < Depth(k)
    decreases Depth(k)
  {
    if k != base {
      IsADepth(Parent(k).value, base);
    }
  }

  lemma {:induction false} IsATransitive(a: ErrorKind, b: ErrorKind, c: ErrorKind)
    requires IsA(a, b) && IsA(b, c)
    ensures IsA(a, c)
    decreases Depth(a)
  {
    if a != b {
      IsATransitive(Parent(a).value, b, c);
    }
  }

  lemma IsAAntisymmetric(a: ErrorKind, b: ErrorKind)
    requires IsA(a, b) && IsA(b, a)
    ensures a == b
  {
    if a != b {
      IsADepth(a, b);
      IsADepth(b, a);
    }
  }

  /** Every class is an `Exception`, so `except Exception` catches all of them. */
  lemma {:induction false} EverythingIsException(k: ErrorKind)
    ensures IsA(k, PyException)
    decreases Depth(k)
  {
    if k != PyException {
      EverythingIsException(Parent(k).value);
    }
  }

  /** Exactly the application's own classes derive from `AppException`. */
  lemma AppExceptionRoot(k: ErrorKind)
    ensures IsA(k, AppException) <==> IsAppClass(k)
  {
  }

  /** The subclass facts the test suite asserts, and the sibling facts that
      keep the hierarchy a tree. */
  lemma ExceptionHierarchy()
    ensures IsA(ConfigurationError, AppException)
    ensures IsA(ServiceError, AppException)
    ensures IsA(TelegramError, ServiceError)
    ensures IsA(HttpClientError, ServiceError)
    ensures IsA(ValidationError, AppException)
    ensures IsA(RetryExhaustedError, AppException)
    ensures IsA(TelegramError, AppException) && IsA(HttpClientError, AppException)
    ensures !IsA(ConfigurationError, ServiceError) && !IsA(ValidationError, ServiceError)
    ensures !IsA(RetryExhaustedError, ServiceError) && !IsA(TelegramError, HttpClientError)
    ensures !IsA(AppException, ConfigurationError)
  {
  }
}

=== FILE: retry.dfy ===
/** The `with_retry` wrapper: call an operation up to `max_attempts` times
    with exponential backoff between attempts, return the first success, and
    turn the final failure into a `RetryExhaustedError`.

    The wrapped function is given as its scripted outcomes (`op(i)` is what
    the i-th call, counting from 1, returns or raises). Waits are whole
    milliseconds and are recorded, not slept. */
module Retry {
  import opened Wrappers
  import opened Exceptions

  datatype Outcome<+T> = Ok(value: T) | Err(error: Error)

  /** The decorator's arguments: `max_attempts`, `wait_seconds` and
      `max_wait_seconds`, the last two in milliseconds. */
  datatype Policy = Policy(maxAttempts: int, waitMs: int, maxWaitMs: int)

  const DefaultPolicy := Policy(3, 1000, 10000)

  /** What one wrapped call did: its result, how many times the operation was
      called, and the backoff waits taken between calls, in order. */
  datatype Run<+T> = Run(result: Result<T, Error>, calls: nat, waits: seq<nat>)

  function Pow2(n: nat): (r: nat)
    ensures r >= 1
  {
    if n == 0 then 1 else 2 * Pow2(n - 1)
  }

  /** The number of calls after which `stop_after_attempt(max_attempts)`
      stops. The condition is only consulted after a failed call, so a
      `max_attempts` below 1 still allows one call. */
  function Attempts(p: Policy): (k: nat)
    ensures k >= 1
    ensures p.maxAttempts >= 1 ==> k == p.maxAttempts
    ensures p.maxAttempts < 1 ==> k == 1
  {
    if p.maxAttempts < 1 then 1 else p.maxAttempts
  }

  /** The ceiling on any single wait: `max_wait_seconds`, never below zero. */
  function WaitCeiling(p: Policy): nat {
    if p.maxWaitMs < 0 then 0 else p.maxWaitMs
  }

  /** `wait_exponential(multiplier, max)` after failed attempt `n`:
      `max(0, min(multiplier * 2^(n-1), max))`. */
  function Backoff(p: Policy, n: nat): (w: nat)
    requires n >= 1
    ensures w <= WaitCeiling(p)
  {
    var raw := p.waitMs * Pow2(n - 1);
    var capped := if raw < p.maxWaitMs then raw else p.maxWaitMs;
    if capped < 0 then 0 else capped
  }

  function DigitChar(d: nat): char
    requires d < 10
  {
    "0123456789"[d]
  }

  /** The number a string of decimal digits denotes. */
  function DecimalValue(s: string): nat
    requires forall i :: 0 <= i < |s| ==> '0' <= s[i] <= '9'
  {
    if s == [] then 0 else 10 * DecimalValue(s[..|s| - 1]) + (s[|s| - 1] - '0') as nat
  }

  /** Python's `str()` of a natural number: its decimal digits, without
      leading zeros. */
  function NatDecimal(n: nat): (s: string)
    ensures |s| >= 1
    ensures forall i :: 0 <= i < |s| ==> '0' <= s[i] <= '9'
    ensures DecimalValue(s) == n
    ensures |s| == 1 || s[0] != '0'
    ensures n >= 1 ==> s[0] != '0'
  {
    if n < 10 then
      [DigitChar(n)]
    else
      var high := NatDecimal(n / 10);
      var s := high + [DigitChar(n % 10)];
      assert s[..|s| - 1] == high;
      s
  }

  /** Python's `str()` of an integer. */
  function IntDecimal(i: int): string {
    if i < 0 then "-" + NatDecimal(-i) else NatDecimal(i)
  }

  const FailedPrefix := "Failed after "
  const AttemptsSep := " attempts: "

  /** `RetryExhaustedError(f"Failed after {max_attempts} attempts: {e}") from e`. */
  function Exhausted(p: Policy, last: Error): (e: Error)
    ensures e.kind == RetryExhaustedError && e.cause == Some(last)
    // the message names `max_attempts` and ends with the last error's text
    ensures |e.message| >= |FailedPrefix| + |IntDecimal(p.maxAttempts)| + |last.message|
    ensures e.message[..|FailedPrefix|] == FailedPrefix
    ensures e.message[|FailedPrefix|..|FailedPrefix| + |IntDecimal(p.maxAttempts)|] == IntDecimal(p.maxAttempts)
    ensures e.message[|e.message| - |last.message|..] == last.message
  {
    var count := IntDecimal(p.maxAttempts);
    var m := FailedPrefix + count + AttemptsSep + last.message;
    assert m == FailedPrefix + (count + AttemptsSep + last.message);
    assert m[..|FailedPrefix|] == FailedPrefix;
    assert m[|FailedPrefix|..][..|count|] == count;
    assert m == (FailedPrefix + count + AttemptsSep) + last.message;
    assert m[|m| - |last.message|..] == last.message;
    Error(RetryExhaustedError, m, Some(last))
  }

  /** The error that ends a run whose last call was number `c`: an exception
      raised while waiting after that call, when the policy would have
      retried, or else the call's own error. */
  function LastError<T>(p: Policy, op: nat -> Outcome<T>, sleepFault: map<nat, Error>, c: nat): Error
    requires op(c).Err?
  {
    if c < Attempts(p) && c in sleepFault then sleepFault[c] else op(c).error
  }

  /** The retry loop from attempt `n` on. `sleepFault` holds the exceptions
      raised by the retry machinery itself while waiting after a given
      attempt (the source's `except Exception` branch). */
  function Drive<T>(p: Policy, op: nat -> Outcome<T>, sleepFault: map<nat, Error>, n: nat): (r: Run<T>)
    requires 1 <= n <= Attempts(p)
    decreases Attempts(p) - n
    ensures n <= r.calls <= Attempts(p)
    ensures |r.waits| == r.calls - n
    ensures forall i :: 0 <= i < |r.waits| ==> r.waits[i] == Backoff(p, n + i)
    ensures forall i :: n <= i < r.calls ==> op(i).Err? && i !in sleepFault
    ensures r.result.Success? <==> op(r.calls).Ok?
    ensures r.result.Success? ==> r.result.value == op(r.calls).value
    ensures r.result.Failure? ==> r.calls == Attempts(p) || r.calls in sleepFault
    ensures r.result.Failure? ==> r.result.error == Exhausted(p, LastError(p, op, sleepFault, r.calls))
  {
    match op(n)
    case Ok(v) => Run(Success(v), n, [])
    case Err(e) =>
      if n >= Attempts(p) then Run(Failure(Exhausted(p, e)), n, [])
      else if n in sleepFault then Run(Failure(Exhausted(p, sleepFault[n])), n, [])
      else
        var rest := Drive(p, op, sleepFault, n + 1);
        Run(rest.result, rest.calls, [Backoff(p, n)] + rest.waits)
  }

  /** Calling the decorated function once. */
  function WithRetry<T>(p: Policy, op: nat -> Outcome<T>, sleepFault: map<nat, Error>): (r: Run<T>)
    ensures 1 <= r.calls <= Attempts(p)
    ensures |r.waits| == r.calls - 1
    ensures r.result.Success? <==> op(r.calls).Ok?
    ensures r.result.Success? ==> r.result.value == op(r.calls).value
    ensures forall i :: 1 <= i < r.calls ==> op(i).Err?
    ensures r.result.Failure? ==> r.result.error.kind == RetryExhaustedError
    ensures r.result.Failure? ==> r.result.error.cause == Some(LastError(p, op, sleepFault, r.calls))
  {
    Drive(p, op, sleepFault, 1)
  }

  // ---------------------------------------------------------------------------
  // Properties
  // ---------------------------------------------------------------------------

  /** A first call that succeeds is the only call, and nothing waits. */
  lemma FirstAttemptSucceeds<T>(p: Policy, op: nat -> Outcome<T>, sleepFault: map<nat, Error>)
    requires op(1).Ok?
    ensures WithRetry(p, op, sleepFault) == Run(Success(op(1).value), 1, [])
  {
  }

  /** `k` failures below the limit followed by a success: the success is
      returned after exactly `k + 1` calls. */
  lemma SucceedsAfterFailures<T>(p: Policy, op: nat -> Outcome<T>, sleepFault: map<nat, Error>, k: nat)
    requires k < Attempts(p)
    requires forall i :: 1 <= i <= k ==> op(i).Err? && i !in sleepFault
    requires op(k + 1).Ok?
    ensures WithRetry(p, op, sleepFault).result == Success(op(k + 1).value)
    ensures WithRetry(p, op, sleepFault).calls == k + 1
  {
  }

  /** An operation that always fails is called exactly `Attempts(p)` times
      and the last error, not the first, becomes the cause. */
  lemma AlwaysFails<T>(p: Policy, op: nat -> Outcome<T>, sleepFault: map<nat, Error>)
    requires forall i :: 1 <= i <= Attempts(p) ==> op(i).Err?
    requires forall i :: 1 <= i < Attempts(p) ==> i !in sleepFault
    ensures WithRetry(p, op, sleepFault).calls == Attempts(p)
    ensures WithRetry(p, op, sleepFault).result == Failure(Exhausted(p, op(Attempts(p)).error))
  {
    var r := WithRetry(p, op, sleepFault);
    assert op(r.calls).Err?;
  }

  /** An exception raised while waiting is wrapped the same way, with that
      exception as the cause, and no further call is made. */
  lemma SleepFaultIsWrapped<T>(p: Policy, op: nat -> Outcome<T>, sleepFault: map<nat, Error>, k: nat)
    requires 1 <= k < Attempts(p)
    requires forall i :: 1 <= i <= k ==> op(i).Err?
    requires forall i :: 1 <= i < k ==> i !in sleepFault
    requires k in sleepFault
    ensures WithRetry(p, op, sleepFault).calls == k
    ensures WithRetry(p, op, sleepFault).result == Failure(Exhausted(p, sleepFault[k]))
  {
    var r := WithRetry(p, op, sleepFault);
    assert op(r.calls).Err?;
  }

  /** With a single allowed attempt a failure ends the call at once: one
      call, no wait. */
  lemma SingleAttemptNeverWaits<T>(p: Policy, op: nat -> Outcome<T>, sleepFault: map<nat, Error>)
    requires p.maxAttempts <= 1
    requires op(1).Err?
    ensures WithRetry(p, op, sleepFault) == Run(Failure(Exhausted(p, op(1).error)), 1, [])
  {
  }

  lemma {:induction false} Pow2Monotone(a: nat, b: nat)
    requires a <= b
    ensures Pow2(a) <= Pow2(b)
    decreases b - a
  {
    if a < b {
      Pow2Monotone(a, b - 1);
    }
  }

  /** Backoff never shrinks from one attempt to a later one. */
  lemma BackoffMonotone(p: Policy, n: nat, m: nat)
    requires 1 <= n <= m
    ensures Backoff(p, n) <= Backoff(p, m)
  {
    var a, b := Pow2(n - 1), Pow2(m - 1);
    Pow2Monotone(n - 1, m - 1);
    if p.waitMs >= 0 {
      ScaleMonotone(p.waitMs, a, b);
    } else {
      NegativeScale(p.waitMs, a);
      NegativeScale(p.waitMs, b);
    }
  }

  lemma ScaleMonotone(c: nat, x: nat, y: nat)
    requires x <= y
    ensures c * x <= c * y
  {
  }

  lemma NegativeScale(c: int, x: nat)
    requires c < 0 && x >= 1
    ensures c * x < 0
  {
  }

  /** The waits of any run are non-decreasing and bounded by the ceiling. */
  lemma WaitsNonDecreasing<T>(p: Policy, op: nat -> Outcome<T>, sleepFault: map<nat, Error>)
    ensures var w := WithRetry(p, op, sleepFault).waits;
            && (forall i, j :: 0 <= i <= j < |w| ==> w[i] <= w[j])
            && (forall i :: 0 <= i < |w| ==> w[i] <= WaitCeiling(p))
  {
    var w := WithRetry(p, op, sleepFault).waits;
    forall i, j | 0 <= i <= j < |w| ensures w[i] <= w[j] {
      BackoffMonotone(p, 1 + i, 1 + j);
    }
  }

  /** With waits in milliseconds the first retry waits `waitMs` and the
      default policy's fourth wait reaches the 10-second ceiling. */
  lemma BackoffSchedule()
    ensures Backoff(DefaultPolicy, 1) == 1000 && Backoff(DefaultPolicy, 2) == 2000
    ensures Backoff(DefaultPolicy, 4) == 8000 && Backoff(DefaultPolicy, 5) == 10000
  {
  }

  /** Two failures, then success, with three attempts allowed: the value
      comes back after three calls. */
  lemma SucceedsOnThirdCallExample()
    ensures var op := (i: nat) => if i < 3 then Err(Raise(Foreign("ValueError"), "temporary error")) else Ok("success");
            var r := WithRetry(Policy(3, 10, 10000), op, map[]);
            r.result == Success("success") && r.calls == 3 && r.waits == [10, 20]
  {
    var op := (i: nat) => if i < 3 then Err(Raise(Foreign("ValueError"), "temporary error")) else Ok("success");
    SucceedsAfterFailures(Policy(3, 10, 10000), op, map[], 2);
  }

  lemma ExhaustedMessage(p: Policy, last: Error)
    ensures Exhausted(p, last).message == FailedPrefix + IntDecimal(p.maxAttempts) + AttemptsSep + last.message
  {
  }

  lemma TwoAttemptsMessage(failure: Error)
    requires failure.message == "permanent error"
    ensures Exhausted(Policy(2, 10, 10000), failure).message == "Failed after 2 attempts: permanent error"
  {
    ExhaustedMessage(Policy(2, 10, 10000), failure);
    assert IntDecimal(2) == "2";
  }

  /** An operation that always fails under two attempts: the error names the
      attempt count and carries the underlying message. */
  lemma ExhaustedExample()
    ensures var failure := Raise(Foreign("ValueError"), "permanent error");
            var r := WithRetry<string>(Policy(2, 10, 10000), (i: nat) => Err(failure), map[]);
            && r.calls == 2
            && r.result.Failure?
            && r.result.error.kind == RetryExhaustedError
            && r.result.error.message == "Failed after 2 attempts: permanent error"
            && r.result.error.cause == Some(failure)
  {
    var failure := Raise(Foreign("ValueError"), "permanent error");
    var p := Policy(2, 10, 10000);
    AlwaysFails<string>(p, (i: nat) => Err(failure), map[]);
    TwoAttemptsMessage(failure);
  }
}

=== FILE: signals.dfy ===
/** `GracefulShutdown`: a `should_exit` flag set by SIGTERM/SIGINT and an
    ordered list of cleanup callbacks that run when the `async with` block
    is left after a signal.

    Callbacks are identified by number; whether one raises, and what, is
    given as data (`raises`). Leaving the block returns the trace of the
    callbacks it awaited and the failures it logged. */
module Signals {
  import opened Exceptions

  type CallbackId = nat

  datatype Shutdown = Shutdown(shouldExit: bool, callbacks: seq<CallbackId>)

  /** A callback that raised during cleanup, as logged. */
  datatype CleanupFailure = CleanupFailure(callback: CallbackId, error: Error)

  /** What leaving the block did: the callbacks awaited, in order, and the
      failures that were logged and swallowed. */
  datatype ExitReport = ExitReport(invoked: seq<CallbackId>, failures: seq<CleanupFailure>)

  const SIGINT := 2
  const SIGTERM := 15

  /** `GracefulShutdown()`. */
  function New(): (s: Shutdown)
    ensures !s.shouldExit && s.callbacks == []
  {
    Shutdown(false, [])
  }

  /** `register_cleanup(callback)`: append at the end, keep everything else. */
  function RegisterCleanup(s: Shutdown, cb: CallbackId): (t: Shutdown)
    ensures t.shouldExit == s.shouldExit
    ensures |t.callbacks| == |s.callbacks| + 1
    ensures t.callbacks[..|s.callbacks|] == s.callbacks && t.callbacks[|s.callbacks|] == cb
  {
    s.(callbacks := s.callbacks + [cb])
  }

  /** `_handle_signal(signum, frame)`: raise the flag, touch nothing else. */
  function HandleSignal(s: Shutdown, signum: int): (t: Shutdown)
    ensures t.shouldExit && t.callbacks == s.callbacks
  {
    s.(shouldExit := true)
  }

  /** The failures logged while awaiting `cbs` in order. */
  function FailuresOf(cbs: seq<CallbackId>, raises: map<CallbackId, Error>): (r: seq<CleanupFailure>)
    ensures |r| <= |cbs|
    ensures forall f :: f in r ==> f.callback in cbs && f.callback in raises && f.error == raises[f.callback]
    ensures forall j :: 0 <= j < |cbs| && cbs[j] in raises ==> CleanupFailure(cbs[j], raises[cbs[j]]) in r
  {
    if cbs == [] then []
    else
      var here := if cbs[0] in raises then [CleanupFailure(cbs[0], raises[cbs[0]])] else [];
      here + FailuresOf(cbs[1..], raises)
  }

  /** `__aexit__`: with the flag up, await every callback once, in
      registration order, logging and swallowing what they raise; with the
      flag down, do nothing. The handler itself is left as it was. */
  function Exit(s: Shutdown, raises: map<CallbackId, Error>): (r: (Shutdown, ExitReport))
    ensures r.0 == s
    ensures !s.shouldExit ==> r.1.invoked == [] && r.1.failures == []
    ensures s.shouldExit ==> r.1.invoked == s.callbacks
    ensures s.shouldExit ==> r.1.failures == FailuresOf(s.callbacks, raises)
  {
    if s.shouldExit then (s, ExitReport(s.callbacks, FailuresOf(s.callbacks, raises)))
    else (s, ExitReport([], []))
  }

  lemma {:induction false} FailuresOfAppend(cbs: seq<CallbackId>, cb: CallbackId, raises: map<CallbackId, Error>)
    ensures FailuresOf(cbs + [cb], raises)
         == FailuresOf(cbs, raises) + (if cb in raises then [CleanupFailure(cb, raises[cb])] else [])
  {
    if cbs == [] {
      assert cbs + [cb] == [cb];
      assert [cb][1..] == [];
    } else {
      assert (cbs + [cb])[1..] == cbs[1..] + [cb];
      FailuresOfAppend(cbs[1..], cb, raises);
    }
  }

  /** The cleanup loop as the source runs it: one `try`/`except` per
      callback, so a raising callback never stops the ones after it. */
  method RunCleanup(s: Shutdown, raises: map<CallbackId, Error>) returns (invoked: seq<CallbackId>, failures: seq<CleanupFailure>)
    ensures ExitReport(invoked, failures) == Exit(s, raises).1
  {
    invoked := [];
    failures := [];
    if s.shouldExit {
      var i := 0;
      while i < |s.callbacks|
        invariant 0 <= i <= |s.callbacks|
        invariant invoked == s.callbacks[..i]
        invariant failures == FailuresOf(s.callbacks[..i], raises)
      {
        var cb := s.callbacks[i];
        FailuresOfAppend(s.callbacks[..i], cb, raises);
        assert s.callbacks[..i + 1] == s.callbacks[..i] + [cb];
        invoked := invoked + [cb];
        if cb in raises {
          failures := failures + [CleanupFailure(cb, raises[cb])];
        }
        i := i + 1;
      }
      assert s.callbacks[..i] == s.callbacks;
    }
  }

  // ---------------------------------------------------------------------------
  // Signal handler installation
  // ---------------------------------------------------------------------------

  /** `setup_signal_handlers(shutdown)`: the signals whose handler becomes
      `shutdown._handle_signal`, in installation order. */
  function SetupSignalHandlers(): (installed: seq<int>)
    ensures |installed| == 2
  {
    [SIGTERM, SIGINT]
  }

  /** Delivery of a signal, as far as the shutdown coordinator sees it: a
      signal whose handler was installed raises the flag. Only the flag is
      described; what the process does with any other signal (by default
      SIGINT raises `KeyboardInterrupt` and SIGTERM ends the process) is
      outside the model, which leaves the coordinator unchanged. */
  function Deliver(installed: seq<int>, s: Shutdown, signum: int): Shutdown {
    if signum in installed then HandleSignal(s, signum) else s
  }

  /** After installation exactly SIGTERM and SIGINT raise the flag, and no
      signal touches the callback list. */
  lemma InstalledForTermAndInt(s: Shutdown, signum: int)
    ensures Deliver(SetupSignalHandlers(), s, signum).shouldExit
        <==> s.shouldExit || signum == SIGTERM || signum == SIGINT
    ensures Deliver(SetupSignalHandlers(), s, signum).callbacks == s.callbacks
  {
  }

  // ---------------------------------------------------------------------------
  // Runs of the handler
  // ---------------------------------------------------------------------------

  datatype Event = Register(cb: CallbackId) | Signal(signum: int)

  function Step(s: Shutdown, e: Event): Shutdown {
    match e
    case Register(cb) => RegisterCleanup(s, cb)
    case Signal(n) => HandleSignal(s, n)
  }

  /** Apply the events in order. */
  function Replay(s: Shutdown, evs: seq<Event>): Shutdown
    decreases |evs|
  {
    if evs == [] then s else Replay(Step(s, evs[0]), evs[1..])
  }

  /** The callbacks registered by a run of events, in order. */
  function Registered(evs: seq<Event>): seq<CallbackId> {
    if evs == [] then []
    else (if evs[0].Register? then [evs[0].cb] else []) + Registered(evs[1..])
  }

  predicate HasSignal(evs: seq<Event>) {
    exists i :: 0 <= i < |evs| && evs[i].Signal?
  }

  /** Nothing ever lowers the flag. */
  lemma {:induction false} FlagNeverReverts(s: Shutdown, evs: seq<Event>)
    requires s.shouldExit
    ensures Replay(s, evs).shouldExit
    decreases |evs|
  {
    if evs != [] {
      FlagNeverReverts(Step(s, evs[0]), evs[1..]);
    }
  }

  /** The flag is up exactly when it was up before or a signal arrived. */
  lemma {:induction false} FlagIffSignal(s: Shutdown, evs: seq<Event>)
    ensures Replay(s, evs).shouldExit <==> s.shouldExit || HasSignal(evs)
    decreases |evs|
  {
    if evs != [] {
      FlagIffSignal(Step(s, evs[0]), evs[1..]);
      if evs[0].Signal? {
        assert HasSignal(evs);
      }
      if HasSignal(evs[1..]) {
        var i :| 0 <= i < |evs[1..]| && evs[1..][i].Signal?;
        assert evs[i + 1].Signal?;
      }
      if HasSignal(evs) && !evs[0].Signal? {
        var i :| 0 <= i < |evs| && evs[i].Signal?;
        assert evs[1..][i - 1].Signal?;
      }
    }
  }

  /** Callbacks are only ever appended, in registration order; signals do
      not touch the list. */
  lemma {:induction false} CallbacksInRegistrationOrder(s: Shutdown, evs: seq<Event>)
    ensures Replay(s, evs).callbacks == s.callbacks + Registered(evs)
    decreases |evs|
  {
    if evs != [] {
      CallbacksInRegistrationOrder(Step(s, evs[0]), evs[1..]);
      assert Replay(s, evs).callbacks == Step(s, evs[0]).callbacks + Registered(evs[1..]);
    }
  }

  /** Leaving the block does not reset anything, so a second exit awaits the
      same callbacks again. */
  lemma ExitTwiceRepeatsCleanup(s: Shutdown, raises: map<CallbackId, Error>)
    ensures Exit(Exit(s, raises).0, raises) == Exit(s, raises)
    ensures s.shouldExit ==> Exit(Exit(s, raises).0, raises).1.invoked == s.callbacks
  {
  }

  /** No signal: the flag stays down through the block and nothing runs. */
  lemma ContextWithoutSignal(raises: map<CallbackId, Error>)
    ensures !New().shouldExit
    ensures Exit(New(), raises) == (New(), ExitReport([], []))
  {
  }

  /** A registered cleanup runs after a simulated SIGTERM. */
  lemma SignalThenCleanup(cb: CallbackId)
    ensures HandleSignal(RegisterCleanup(New(), cb), SIGTERM).shouldExit
    ensures Exit(HandleSignal(RegisterCleanup(New(), cb), SIGTERM), map[]).1 == ExitReport([cb], [])
  {
  }

  /** Callbacks A, B, C with B raising: all three run once, in order, and
      only B's failure is logged. */
  lemma FailingCallbackDoesNotStopOthers(e: Error)
    ensures var s := HandleSignal(RegisterCleanup(RegisterCleanup(RegisterCleanup(New(), 1), 2), 3), SIGINT);
            Exit(s, map[2 := e]).1 == ExitReport([1, 2, 3], [CleanupFailure(2, e)])
  {
    var s := HandleSignal(RegisterCleanup(RegisterCleanup(RegisterCleanup(New(), 1), 2), 3), SIGINT);
    assert s.callbacks == [1, 2, 3];
    var raises := map[2 := e];
    assert 1 !in raises && 3 !in raises;
    assert [1, 2, 3][1..] == [2, 3] && [2, 3][1..] == [3] && [3][1..] == [];
    assert FailuresOf([3], raises) == [];
    assert FailuresOf([2, 3], raises) == [CleanupFailure(2, e)];
    assert FailuresOf([1, 2, 3], raises) == [CleanupFailure(2, e)];
  }
}

=== FILE: telegram.dfy ===
/** `TelegramNotifier`: whether a delivery call to the Telegram bot happens at
    all, what it carries, and the text of error alerts. The bot's
    `send_message` is an oracle (`Api`) that either accepts the call or
    raises. */
module Telegram {
  import opened Wrappers
  import opened Exceptions

  /** A notifier after `__init__`; `bot` holds the token a `Bot` was built
      with, or nothing when no bot exists. */
  datatype Notifier = Notifier(enabled: bool, chatId: string, bot: Option<string>)

  /** One `Bot.send_message(chat_id=…, text=…, parse_mode=…)` call. */
  datatype BotCall = BotCall(chatId: string, text: string, parseMode: string)

  /** How the bot responds to a delivery call. */
  datatype Api = Accepts | Rejects(error: Error)

  /** What `send_message` did. None of these is an exception: a rejected
      call is logged and swallowed. */
  datatype Delivery = Skipped | Sent(call: BotCall) | Swallowed(call: BotCall, error: Error)

  const DefaultParseMode := "Markdown"

  /** `TelegramNotifier(bot_token, chat_id, enabled)`. */
  function Init(botToken: string, chatId: string, enabled: bool): (n: Notifier)
    ensures n.enabled == enabled && n.chatId == chatId
    ensures n.bot.Some? <==> enabled && botToken != ""
    ensures n.bot.Some? ==> n.bot.value == botToken
  {
    if enabled && botToken != "" then Notifier(enabled, chatId, Some(botToken))
    else Notifier(enabled, chatId, None)
  }

  /** The calls a delivery made. */
  function Calls(d: Delivery): seq<BotCall> {
    match d
    case Skipped => []
    case Sent(c) => [c]
    case Swallowed(c, _) => [c]
  }

  /** A delivery call happens: enabled, and a bot exists. */
  predicate WillDeliver(n: Notifier) {
    n.enabled && n.bot.Some?
  }

  /** `send_message(message, parse_mode)`. */
  function SendMessage(n: Notifier, message: string, parseMode: string, api: Api): (d: Delivery)
    ensures d.Skipped? <==> !WillDeliver(n)
    ensures !d.Skipped? ==> d.call == BotCall(n.chatId, message, parseMode)
    ensures WillDeliver(n) && api.Accepts? ==> d.Sent?
    ensures WillDeliver(n) && api.Rejects? ==> d.Swallowed? && d.error == api.error
  {
    if !n.enabled || n.bot.None? then Skipped
    else
      var call := BotCall(n.chatId, message, parseMode);
      match api
      case Accepts => Sent(call)
      case Rejects(e) => Swallowed(call, e)
  }

  const Header := "\U{1F6A8} **Error Alert**\n\n"
  const ContextTag := "**Context:** "

  function ContextLine(context: string): string {
    ContextTag + context + "\n\n"
  }

  function ErrorLine(error: Error): string {
    "**Error:** `" + TypeName(error.kind) + "`\n"
  }

  function MessageLine(error: Error): string {
    "**Message:** " + error.message
  }

  /** The closing part of every alert: the type-name line, then the message. */
  function Closing(error: Error): string {
    ErrorLine(error) + MessageLine(error)
  }

  /** The alert text `send_error` assembles: header, the context line when
      there is a context, then the type name and the message. */
  function ErrorAlert(error: Error, context: string): (m: string)
    ensures |m| >= |Header| + |Closing(error)|
    ensures m[..|Header|] == Header
    ensures m[|m| - |Closing(error)|..] == Closing(error)
    // without a context the type-name line follows the header directly
    ensures context == "" ==> |m| == |Header| + |Closing(error)|
  {
    var opening := if context != "" then ContextLine(context) else "";
    TakePrefix(Header, opening + Closing(error));
    DropPrefix(Header + opening, Closing(error));
    Header + (opening + Closing(error))
  }

  /** `send_error(error, context)`: the alert goes through `send_message`
      with the default parse mode, so the same gating applies. */
  function SendError(n: Notifier, error: Error, context: string, api: Api): (d: Delivery)
    ensures d.Skipped? <==> !WillDeliver(n)
    ensures !d.Skipped? ==> d.call == BotCall(n.chatId, ErrorAlert(error, context), DefaultParseMode)
  {
    SendMessage(n, ErrorAlert(error, context), DefaultParseMode, api)
  }

  // ---------------------------------------------------------------------------
  // Properties
  // ---------------------------------------------------------------------------

  /** A constructed notifier delivers exactly when it is enabled with a
      non-empty token, and then makes exactly one call. */
  lemma DeliveryGating(token: string, chat: string, enabled: bool, message: string, parseMode: string, api: Api)
    ensures var d := SendMessage(Init(token, chat, enabled), message, parseMode, api);
            && (d.Skipped? <==> !enabled || token == "")
            && |Calls(d)| == (if enabled && token != "" then 1 else 0)
  {
  }

  lemma Regroup(a: string, b: string, c: string, d: string)
    ensures a + b + c + d == a + (b + c + d)
  {
  }

  lemma DropPrefix(a: string, b: string)
    ensures (a + b)[|a|..] == b
  {
  }

  /** A text that begins with the context tag. */
  predicate OpensWithContext(text: string) {
    |text| >= |ContextTag| && text[..|ContextTag|] == ContextTag
  }

  lemma TagOpensContext(x: string)
    ensures OpensWithContext(ContextTag + x)
  {
    assert (ContextTag + x)[..|ContextTag|] == ContextTag;
  }

  lemma ErrorLineIsNoContext(x: string)
    ensures !OpensWithContext("**Error:** `" + x)
  {
    var text := "**Error:** `" + x;
    assert text[2] == 'E';
    assert ContextTag[2] == 'C';
  }

  /** The text after the header opens with a context line exactly when the
      context is non-empty. */
  lemma ContextLineIffContext(error: Error, context: string)
    ensures OpensWithContext(ErrorAlert(error, context)[|Header|..]) <==> context != ""
  {
    var tail := ErrorLine(error) + MessageLine(error);
    var opening := if context != "" then ContextLine(context) else "";
    assert ErrorAlert(error, context) == Header + (opening + tail);
    DropPrefix(Header, opening + tail);
    if context != "" {
      Regroup(ContextTag, context, "\n\n", tail);
      TagOpensContext(context + "\n\n" + tail);
    } else {
      assert opening + tail == tail;
      Regroup("**Error:** `", TypeName(error.kind), "`\n", MessageLine(error));
      ErrorLineIsNoContext(TypeName(error.kind) + "`\n" + MessageLine(error));
    }
  }

  lemma TakePrefix(a: string, b: string)
    ensures (a + b)[..|a|] == a
  {
  }

  /** Every alert ends with the error's message line, whatever the context. */
  lemma ErrorAlertFraming(error: Error, context: string)
    ensures var m := ErrorAlert(error, context);
            |m| >= |MessageLine(error)| && m[|m| - |MessageLine(error)|..] == MessageLine(error)
  {
    var m := ErrorAlert(error, context);
    var closing := Closing(error);
    assert m[|m| - |closing|..] == closing;
    assert m[|m| - |MessageLine(error)|..] == closing[|ErrorLine(error)|..];
    DropPrefix(ErrorLine(error), MessageLine(error));
  }

  lemma Middle(a: string, b: string, c: string)
    ensures |a + b + c| == |a| + |b| + |c|
    ensures (a + b + c)[|a|..|a| + |b|] == b
  {
    assert (a + b + c)[|a|..|a| + |b|] == (a + b)[|a|..];
  }

  lemma Assoc(a: string, b: string, c: string)
    ensures a + (b + c) == a + b + c
  {
  }

  lemma Nest(a: string, b: string, c: string, d: string)
    ensures a + b + c + d == a + (b + (c + d))
  {
  }

  /** An alert with a context, split around the context text. */
  lemma AlertAroundContext(error: Error, context: string)
    requires context != ""
    ensures ErrorAlert(error, context) == (Header + ContextTag) + context + ("\n\n" + Closing(error))
  {
    var closing := Closing(error);
    var rest := "\n\n" + closing;
    assert ErrorAlert(error, context) == Header + (ContextLine(context) + closing);
    Nest(ContextTag, context, "\n\n", closing);
    assert ContextLine(context) + closing == ContextTag + (context + rest);
    Assoc(Header, ContextTag, context + rest);
    Assoc(Header + ContextTag, context, rest);
  }

  /** The context can be read back from the alert: different contexts give
      different texts. */
  lemma ErrorAlertDeterminesContext(error: Error, c1: string, c2: string)
    requires ErrorAlert(error, c1) == ErrorAlert(error, c2)
    ensures c1 == c2
  {
    ContextLineIffContext(error, c1);
    ContextLineIffContext(error, c2);
    if c1 != "" && c2 != "" {
      var lead, rest := Header + ContextTag, "\n\n" + Closing(error);
      AlertAroundContext(error, c1);
      AlertAroundContext(error, c2);
      Middle(lead, c1, rest);
      Middle(lead, c2, rest);
    }
  }

  /** The bot is called once with the configured chat id, the text and the
      default parse mode. */
  lemma EnabledSendExample()
    ensures Calls(SendMessage(Init("test-token", "12345", true), "test message", DefaultParseMode, Accepts))
         == [BotCall("12345", "test message", "Markdown")]
  {
  }

  /** A disabled notifier returns normally without a call. */
  lemma DisabledSendExample(api: Api)
    ensures SendMessage(Init("", "", false), "test", DefaultParseMode, api) == Skipped
  {
  }

  /** A bot that raises does not make `send_message` raise. */
  lemma RejectedSendExample()
    ensures var e := Raise(PyException, "API error");
            SendMessage(Init("test-token", "12345", true), "test", DefaultParseMode, Rejects(e))
              == Swallowed(BotCall("12345", "test", "Markdown"), e)
  {
  }

  /** Enabled with an empty token: no bot, so every send is skipped. */
  lemma EmptyTokenSkips(chat: string, message: string, api: Api)
    ensures Init("", chat, true).bot.None?
    ensures SendMessage(Init("", chat, true), message, DefaultParseMode, api) == Skipped
  {
  }
}

=== FILE: wrappers.dfy ===
/** Option and Result, the failure-carrying values the rest of the model returns
    in place of Python's `None` and raised exceptions. */
module Wrappers {

  datatype Option<+T> = None | Some(value: T)

  datatype Result<+R, +E> = Success(value: R) | Failure(error: E) {

    predicate IsFailure() {
      Failure?
    }

    function PropagateFailure<U>(): Result<U, E>
      requires Failure?
    {
      Failure(error)
    }

    function Extract(): R
      requires Success?
    {
      value
    }
  }
}
